=== FILE: README.md ===
# PySnake evolutionary trainer — a Dafny model

This project models the discrete core of PySnake. PySnake evolves small feed-forward networks that steer a snake on a 30 × 20 grid. The model covers five parts:

- **The snake state machine**: turning, moving, eating, the one-shot growth flag, wall and body collisions, and starvation.
- **The eight-sensor input vector**: danger left/ahead/right, which side the food is on, and the normalised distance to the wall.
- **The genome operators**: per-tensor single-point crossover, masked mutation, clone, and the constructor's supplied-tensor path.
- **The genetic algorithm's bookkeeping**: tournament selection, the evaluation pass that tracks the best fitness ever seen, elitism, breeding, and the generation counter and average.
- **Food placement**: rejection sampling for a cell off the body.

Everything is immutable data and pure functions, apart from one method: the food-sampling loop. Randomness becomes explicit parameters:

- the spawn heading;
- the tournament samples;
- the crossover split points;
- the mutation uniforms and Gaussians;
- the freshly drawn initial tensors;
- the candidate food cells.

The network's forward pass enters only as its output vector. Fitness values enter only as a given sequence.

Modules, one per concern:

- `Options`: the optional value.
- `Constants`: the board, cells, headings and configuration.
- `Heading`: argmax and the turn.
- `Sensing`: the sensors.
- `SnakeAgent`: the snake record, its step function and its invariants.
- `Food`: food placement.
- `NeuralNet`: tensors, networks and the genetic operators.
- `Genetic`: the trainer state, selection, evaluation, breeding and the training loop.

## Behaviour of the code worth knowing

- **An isolated meal grows the body by two.** A meal grows the body on the step it is eaten and again on the next non-eating step, which settles the `grow` flag. The flag holds only one owed cell, so meals on consecutive steps share it: two meals in a row followed by a plain step add three cells (`SnakeAgent.ConsecutiveMealsShareGrowth`). So the body length is in general not `score + 1`. `SnakeAgent.LengthIsNotScorePlusOne` exhibits a run with score 1 and three cells. The invariant `SnakeAgent.Valid` bounds the length between `score + 1` and `2 * score + 1` instead.
- **Offspring count.** Breeding fills `N - 1` slots only once a best brain exists. In the first generation with no fitness above 0, all `N` slots are bred.
- **Empty tournament sample.** This is not refused: the scan keeps index -1, and Python's negative indexing returns the last population member. `Genetic.Tournament` models that fallback.
- **Crossover sizes.** Crossover needs only equal flattened sizes per tensor, since the child is reshaped to the receiver's shape. Identical node counts are not required.

## Model

| member | source | states |
|---|---|---|
| `Constants.GridDimensions` | constants.py:4-7 | the grid derived from a 600 × 400 window with 20-pixel cells is 30 cells wide and 20 high |
| `Heading.ArgMax` | snake.py:62 | the decision is an index of the largest output, and every earlier index holds a strictly smaller value (the first maximum wins) |
| `Heading.CandidateByCases` | snake.py:35-45 | stepping back one place in the clockwise list UP, RIGHT, DOWN, LEFT (with Python's modulo) gives the heading's left neighbour, stepping forward gives its right neighbour, any other decision keeps it |
| `Heading.Turn` | snake.py:46-49 | whatever the decision, the new heading never points straight back along the current one, so the snake cannot reverse onto its neck |
| `Heading.TurnGeometry` | snake.py:31-49 | decision 0 rotates the heading vector a quarter turn anticlockwise, 2 a quarter turn clockwise, anything else keeps it; the result is never the reverse of the current heading |
| `Heading.TurnGuardNeverRejects` | snake.py:45-49 | the candidate heading is never the opposite of the current one, so the 180° guard never fires and the turn always adopts the candidate |
| `Heading.RelativeMatchesTurn` | snake.py:122-129 | the hand-written (left, straight, right) table in the sensing code is exactly what decisions 0, 1, 2 of the turn produce, and left is the opposite of right |
| `Sensing.DistanceToWall` | snake.py:182-191 | from a cell on the board the wall scan returns x, W-1-x, y or H-1-y for LEFT, RIGHT, UP, DOWN, and it terminates from any start |
| `Sensing.DistanceToWallIsRun` | snake.py:185-190 | the scan's count n is the length of the unbroken run of on-board cells ahead: cells 1..n ahead are on the board, cell n+1 is not |
| `Sensing.FlagSensorsAreBits` | snake.py:131-154 | the three danger sensors and the three food sensors are all 0/1 flags |
| `Sensing.DangerSensorsMatchHeadings` | snake.py:131-141 | danger straight/left/right is set exactly when the cell one step along the straight/left/right heading of the table is off the board or on the body |
| `Sensing.DangerSensorsMatchTurn` | snake.py:131-141 | danger straight/left/right is set exactly when the cell that decision 1/0/2 of the turn would step into is off the board or on the body |
| `Sensing.FoodSensorsMatchTurn` | snake.py:143-154 | food left/straight/right is set exactly when the offset from the head to the food has a positive dot product with the heading that decision 0/1/2 of the turn would take |
| `Sensing.FoodNeverOnBothSides` | snake.py:145-154 | food is never reported both left and right, since the left heading is the negation of the right one |
| `Sensing.Inputs` | snake.py:101-167 | the sensor vector has exactly as many entries as the network has input nodes (eight); the other `Sensing` rows say what each entry measures (danger 0-2, food 3-5, wall distance 6-7) |
| `Sensing.WallSensorsMeasureGaps` | snake.py:157-163 | from a head on the board, sensor 6 is the number of free cells to the wall straight ahead and sensor 7 the number to the wall on the left, each divided by the longer side of the board |
| `Sensing.WallSensorsBelowOne` | snake.py:157-163 | from a head on the board both distance sensors lie in [0, 1) |
| `SnakeAgent.Spawn` | snake.py:8-15 | a fresh snake is the single cell (GridWidth / 2, GridHeight / 2) in the middle of the board, heads the given direction, is alive, owes no growth, has zero score and counters, and satisfies the body invariant |
| `SnakeAgent.StarvationThreshold` | snake.py:96-98 | the starvation test "more than 1.5 × 30 × 20 steps without food" fires exactly above 900 steps |
| `SnakeAgent.Counted` | snake.py:56-63 | a live step first raises both step counters by one and takes the heading chosen from the outputs, touching nothing else |
| `SnakeAgent.Advance` | snake.py:80-98 | a successful step puts the new head in front of the old cells in order; the length grows by one exactly when the step eats or a growth is owed; eating scores, owes growth and resets hunger, while another step settles the growth; the snake survives exactly while hunger stays within 900 |
| `SnakeAgent.Move` | snake.py:52-98 | a dead snake is unchanged; a live one counts the step and turns; leaving the board or entering any body cell but the head (tail included) kills it with the body, score and growth unchanged; otherwise the step is `Advance`; the body never shrinks |
| `SnakeAgent.MovePreservesValid` | snake.py:52-98 | every step keeps the body non-empty, on the board, duplicate-free and edge-connected, keeps the length between score + 1 and 2·score + 1, and keeps live snakes within the starvation limit |
| `SnakeAgent.DangerSensorPredictsCollision` | snake.py:60-78 | for a valid live snake, the danger sensor for the chosen decision is set exactly when the move collides |
| `SnakeAgent.AdvancePreservesValid` | snake.py:80-98 | a successful step to an on-board neighbour of the head that is off the rest of the body keeps the invariants, whatever the heading |
| `SnakeAgent.ConsecutiveMealsShareGrowth` | snake.py:84-94 | two meals on consecutive steps followed by a plain step score two and add three cells, not four, and leave no growth owed: the one `grow` flag is shared |
| `SnakeAgent.MealGrowsTwice` | snake.py:84-94 | an isolated meal adds two cells: one on the eating step, the owed one on the next step, and none on the step after, so the growth flag is consumed exactly once |
| `SnakeAgent.LengthIsNotScorePlusOne` | snake.py:80-94 | a fresh snake that eats the food ahead and moves on is alive with score 1 and three cells, so length = score + 1 does not hold |
| `SnakeAgent.FloorFitness` | snake.py:205 | the fitness handed to selection is the larger of 1 and the raw value |
| `Food.FirstFree` | food.py:12-17 | the index of the first candidate off the body: it is off the body and all earlier candidates are on it |
| `Food.RandomizePosition` | food.py:11-17 | the sampling loop stops on a candidate that is on the board and off the body, every candidate drawn before it was on the body |
| `Food.RandomizePicksFirstFree` | food.py:12-17 | the cell the loop stops on is exactly the first free candidate |
| `Food.NewFood` | food.py:6-9 | a new food item is placed against an empty body, so the first draw is accepted and lies on the board |
| `Food.FullBoardNeverStops` | food.py:12-17 | when the body covers every cell no candidate is free, so the loop could never stop |
| `NeuralNet.Create` | neural_network.py:7-30 | each supplied tensor is stored unchanged and each missing one is its fresh draw, field by field; with correctly shaped draws and correctly shaped supplied tensors the network is well-formed |
| `NeuralNet.Clone` | neural_network.py:102-111 | the copy has the same node counts and equal tensors |
| `NeuralNet.Splice` | neural_network.py:74-76 | the spliced flattening has the partner's length, takes entries below the split from the receiver and the rest from the partner |
| `NeuralNet.CrossTensor` | neural_network.py:73-77 | a child tensor keeps the receiver's shape and follows the splice rule at its split point |
| `NeuralNet.Crossover` | neural_network.py:69-100 | the child has the receiver's node counts, is well-formed when the receiver is, and each of its four tensors follows the splice rule at its own split |
| `NeuralNet.CrossoverLastFromPartner` | neural_network.py:73-76 | since every split is below the tensor size, the last entry of every child tensor comes from the partner |
| `NeuralNet.SpliceExtremes` | neural_network.py:76 | a split at 0 yields the partner's flattening, and splicing a flattening with itself returns it for any split |
| `NeuralNet.CrossoverAtZero` | neural_network.py:73-98 | all splits at 0 give the partner's entries, and the partner itself when it has the receiver's shape |
| `NeuralNet.CrossoverWithSelf` | neural_network.py:69-100 | crossing a network with itself or with an equal copy reproduces it for any split points |
| `NeuralNet.CrossoverSplitsIndependent` | neural_network.py:73-98 | each child tensor depends on its own split point only |
| `NeuralNet.Perturb` | neural_network.py:50-52 | an entry whose uniform is at least the rate is unchanged, any other gets its Gaussian times 0.1 added |
| `NeuralNet.Mutate` | neural_network.py:48-67 | mutation keeps node counts, tensor shapes and well-formedness, leaves every entry with a clear mask bit as it was, and adds the Gaussian times 0.1 to every entry whose mask bit is set |
| `NeuralNet.MutateTensorUnmasked` | neural_network.py:50-52 | a tensor with no mask bit set comes back unchanged |
| `NeuralNet.MutateRateZero` | neural_network.py:48-67 | with rate 0 and uniforms in [0, 1) mutation changes nothing |
| `NeuralNet.MutateRateOne` | neural_network.py:48-67 | with rate 1 and uniforms in [0, 1) every entry moves by its scaled Gaussian |
| `Genetic.Initialize` | genetic_algorithm.py:9-27 | the initial trainer holds `population_size` freshly drawn networks, generation 0, best and average fitness 0 and no best brain, and is valid for positive sizes and well-shaped draws |
| `Genetic.Scan` | genetic_algorithm.py:98-104 | the scan's best bounds every sampled fitness; it stays at -1 exactly when no sampled fitness exceeds -1, and otherwise it holds the earliest sampled position of a maximal fitness |
| `Genetic.Tournament` | genetic_algorithm.py:96-105 | when some sampled fitness exceeds -1, the winner is a sampled index whose fitness is at least every sampled fitness, and earlier samples are strictly worse; otherwise the last population member is returned |
| `Genetic.FlooredTournamentPicksSample` | genetic_algorithm.py:99-105 | with every fitness at least 1, a non-empty sample always yields a sampled winner, never the -1 fallback |
| `Genetic.Evaluate` | genetic_algorithm.py:40-52 | the total is the sum of the fitnesses; the best ever never drops; from a non-negative start, this generation's maximum (floored at 0) never exceeds the best ever, and the best ever becomes the maximum of its old value and every fitness; the best brain is replaced only on strict improvement, by the brain of the first individual to reach the new best (a later tie does not replace it) |
| `Genetic.Breed` | genetic_algorithm.py:75-82 | a child bred from two tournament winners by crossover and mutation is a well-formed network of the trainer's size |
| `Genetic.BreedFromWinners` | genetic_algorithm.py:75-82 | in each of the child's four tensors, entry k is the first winner's entry below that tensor's split and the second winner's from it on, plus the Gaussian times 0.1 where the mask bit is set |
| `Genetic.Offspring` | genetic_algorithm.py:73-84 | the requested number of children, child k bred from the k-th draws, all of the trainer's size |
| `Genetic.NextPopulation` | genetic_algorithm.py:64-84 | the next population has exactly `population_size` members; the best brain, when there is one, comes first, and the bred children fill the rest |
| `Genetic.RunGeneration` | genetic_algorithm.py:29-87 | a generation raises the counter by one and keeps the population size and validity; the best fitness never drops and becomes the maximum of the old best and every fitness; the best brain changes only on strict improvement, to the first individual reaching the new best, and then leads the new population, with bred children in the other slots; the average is the fitness sum over the population size |
| `Genetic.FirstGenerationKeepsElite` | genetic_algorithm.py:64-69 | with fitness floored at 1, the first generation always records a best brain, which leads the second population, followed by `population_size - 1` children |
| `Genetic.GetBestBrain` | genetic_algorithm.py:109-110 | the saved best brain is present exactly when some fitness has beaten 0, and then it has the trainer's size |
| `Genetic.Train` | main.py:54-57 | over any number of generations the state stays valid, the counter advances by the number of generations, and the best fitness never drops and bounds every fitness seen |

## Left out

- Forward pass: `feedforward` and `sigmoid` use floating-point exponentials. `Move` receives the network's output vector instead, and only its argmax matters.
- He-scaled random initialisation: the drawn tensors are parameters (`Drawn`), with their shapes stated by `DrawnFor`.
- Fitness formula: `2**score`, `score**2.1` and the 0.1/0.5 penalties are floating-point arithmetic. Only the floor at 1 is modelled. The trainer takes fitness values as given input.
- Game driver: `run_simulation` in game.py is not part of this model. Its loop runs until the snake dies. Whether it ends depends on the random food placement, which never returns on a full board. The loop is also tied to pygame.
- Rendering, window events and frame timing: `draw`, pygame and the display branch of `run_generation`. main.py's QUIT handling is also left out. These are UI only.
- Persistence: the database module and main.py's database keyword arguments are I/O.
- Command line: argparse and the display interval. `Train` runs one generation per supplied fitness vector.
- Progress printing in `run_generation`.
- Floating point: fitness, weights and sensor values are exact reals. Rounding of sums, averages and the sensor division is not modelled.
- Other snakes: `all_snake_bodies` is passed around but never consulted. Danger checks only the snake's own body, and the model does the same.
- The per-snake state of individuals: an individual is represented by its brain. A new `Snake(brain=…)` copies the brain and draws a random heading, which belongs to `Spawn`. The `fitness` attribute written on each snake is not kept.
- Discarded draws in crossover: the child network is first built with random tensors that are all overwritten. Those draws are not modelled.
- Aliasing: `clone` gives fresh storage, and mutating a clone leaves the original untouched. Under value semantics this holds for every function here, so no separate storage is modelled.
- Sensor 4: the "food straight ahead" flag carries no separate property beyond being 0/1.
- Failure paths of numpy and Python become preconditions, since the source raises on them:
  - a split point drawn from an empty range;
  - a reshape to a different size;
  - division by a zero population size or by zero input/hidden counts.
- The food loop on a full board: it never terminates. `RandomizePosition` requires that some candidate draw is free, and `FullBoardNeverStops` shows no draw is free once the body covers the board.
- Genetic.RunGeneration: takes at least `population_size` breeding draws and uses only as many as there are free slots. The last one goes unused when an elite is kept.

=== FILE: constants.dfy ===
/** Board geometry and configuration shared by the whole trainer: the grid is
    derived from the window size and the cell size, a cell is an integer pair,
    and a heading is one of four unit vectors in screen coordinates (y grows
    downwards). */
module Constants {

  const Width: int := 600
  const Height: int := 400
  const GridSize: int := 20
  const GridWidth: int := Width / GridSize
  const GridHeight: int := Height / GridSize

  const PopulationSize: nat := 500
  const MutationRate: real := 0.1
  const InputNodes: nat := 8
  const HiddenNodes: nat := 12
  const OutputNodes: nat := 3

  /** A grid cell, or a displacement between two cells. */
  datatype Cell = Cell(x: int, y: int)

  predicate InGrid(c: Cell) {
    0 <= c.x < GridWidth && 0 <= c.y < GridHeight
  }

  /** The four absolute headings. */
  datatype Dir = Up | Right | Down | Left

  /** The unit vector of a heading. */
  function Vec(d: Dir): Cell {
    match d
    case Up => Cell(0, -1)
    case Down => Cell(0, 1)
    case Left => Cell(-1, 0)
    case Right => Cell(1, 0)
  }

  function Add(a: Cell, b: Cell): Cell {
    Cell(a.x + b.x, a.y + b.y)
  }

  function Neg(a: Cell): Cell {
    Cell(-a.x, -a.y)
  }

  function Dot(a: Cell, b: Cell): int {
    a.x * b.x + a.y * b.y
  }

  /** The neighbouring cell one step along a heading. */
  function Next(c: Cell, d: Dir): Cell {
    Add(c, Vec(d))
  }

  function Abs(n: int): nat {
    if n < 0 then -n else n
  }

  /** Two cells share an edge. */
  predicate Adjacent(a: Cell, b: Cell) {
    Abs(a.x - b.x) + Abs(a.y - b.y) == 1
  }

  /** Quarter turn clockwise on screen (y downwards): Up becomes Right. */
  function RotateClockwise(v: Cell): Cell {
    Cell(-v.y, v.x)
  }

  /** Quarter turn anticlockwise on screen: Up becomes Left. */
  function RotateAnticlockwise(v: Cell): Cell {
    Cell(v.y, -v.x)
  }

  lemma GridDimensions()
    ensures GridWidth == 30 && GridHeight == 20
  {
  }
}

=== FILE: food.dfy ===
/** Food placement by rejection sampling: keep drawing a uniformly random
    cell until one falls off the snake's body. The random cells are passed in
    as the sequence of draws the generator would produce. */
module Food {

  import opened Constants

  datatype Food = Food(position: Cell)

  /** Every draw comes from `randint(0, GRID_WIDTH - 1)` and
      `randint(0, GRID_HEIGHT - 1)`, so it lies on the board. */
  predicate Draws(draws: seq<Cell>) {
    forall i :: 0 <= i < |draws| ==> InGrid(draws[i])
  }

  /** Some draw lands off the body, so the sampling loop stops. */
  predicate SomeFree(body: seq<Cell>, draws: seq<Cell>) {
    exists k :: 0 <= k < |draws| && draws[k] !in body
  }

  /** Reference definition: the index of the first draw off the body. */
  function FirstFree(body: seq<Cell>, draws: seq<Cell>): (i: nat)
    requires SomeFree(body, draws)
    ensures i < |draws| && draws[i] !in body
    ensures forall j :: 0 <= j < i ==> draws[j] in body
    decreases |draws|
  {
    if draws[0] !in body then 0
    else
      assert SomeFree(body, draws[1..]) by {
        var k :| 0 <= k < |draws| && draws[k] !in body;
        assert k > 0 && draws[1..][k - 1] == draws[k];
      }
      var i := FirstFree(body, draws[1..]);
      assert forall j :: 1 <= j <= i ==> draws[j] == draws[1..][j - 1];
      1 + i
  }

  /** The sampling loop. It returns the chosen food and how many draws it
      consumed; the chosen cell is the last of those. */
  method RandomizePosition(body: seq<Cell>, draws: seq<Cell>) returns (f: Food, used: nat)
    requires Draws(draws) && SomeFree(body, draws)
    ensures 0 < used <= |draws|
    ensures f.position == draws[used - 1]
    ensures InGrid(f.position) && f.position !in body
    ensures forall j :: 0 <= j < used - 1 ==> draws[j] in body
  {
    var k :| 0 <= k < |draws| && draws[k] !in body;
    used := 0;
    var position := draws[0];
    while true
      invariant used <= k
      invariant forall j :: 0 <= j < used ==> draws[j] in body
      decreases k - used
    {
      position := draws[used];
      used := used + 1;
      if position !in body {
        break;
      }
    }
    f := Food(position);
  }

  /** The loop picks exactly the first free draw. */
  lemma RandomizePicksFirstFree(body: seq<Cell>, draws: seq<Cell>, used: nat)
    requires SomeFree(body, draws)
    requires 0 < used <= |draws| && draws[used - 1] !in body
    requires forall j :: 0 <= j < used - 1 ==> draws[j] in body
    ensures used - 1 == FirstFree(body, draws)
  {
    var i := FirstFree(body, draws);
    assert i >= used - 1 by {
      assert draws[i] !in body;
    }
    assert i <= used - 1 by {
      assert draws[used - 1] !in body;
    }
  }

  /** A new food item is placed against an empty body, so the first draw is
      always accepted. */
  function NewFood(draws: seq<Cell>): (f: Food)
    requires |draws| > 0 && Draws(draws)
    ensures f.position == draws[0] && InGrid(f.position)
  {
    assert draws[0] !in [];
    Food(draws[FirstFree([], draws)])
  }

  /** When the body covers the whole board no draw is free, so the loop
      would never stop: `SomeFree` fails for every sequence of draws. */
  lemma FullBoardNeverStops(body: seq<Cell>, draws: seq<Cell>)
    requires Draws(draws)
    requires forall c :: InGrid(c) ==> c in body
    ensures !SomeFree(body, draws)
  {
    forall k | 0 <= k < |draws|
      ensures draws[k] in body
    {
      assert InGrid(draws[k]);
    }
  }
}

=== FILE: genetic.dfy ===
/** The genetic algorithm's bookkeeping: the population of brains, the
    evaluation pass that tracks the best fitness ever seen, tournament
    selection, elitism and breeding. Fitness values (the outcome of running
    each snake's game) and every random draw are passed in. */
module Genetic {

  import opened Options
  import opened NeuralNet

  /** The trainer's state. An individual is represented by its brain. */
  datatype GA = GA(
    populationSize: nat,
    mutationRate: real,
    inputNodes: nat,
    hiddenNodes: nat,
    outputNodes: nat,
    population: seq<Network>,
    generation: nat,
    bestFitness: real,
    avgFitness: real,
    bestBrain: Option<Network>)

  /** A brain of the trainer's size. */
  predicate Member(n: Network, inputNodes: nat, hiddenNodes: nat, outputNodes: nat) {
    && WellFormed(n)
    && n.inputNodes == inputNodes && n.hiddenNodes == hiddenNodes && n.outputNodes == outputNodes
  }

  predicate AllMembers(population: seq<Network>, inputNodes: nat, hiddenNodes: nat, outputNodes: nat) {
    forall k :: 0 <= k < |population| ==> Member(population[k], inputNodes, hiddenNodes, outputNodes)
  }

  /** What every reachable trainer state satisfies: positive sizes (the
      constructor's He scaling divides by the input and hidden counts, and
      the averaging divides by the population size), a full population of
      brains of the right size, a non-negative best fitness, and a best brain
      present exactly when some fitness has beaten the initial 0. */
  predicate Valid(ga: GA) {
    && ga.populationSize > 0
    && ga.inputNodes > 0 && ga.hiddenNodes > 0 && ga.outputNodes > 0
    && |ga.population| == ga.populationSize
    && AllMembers(ga.population, ga.inputNodes, ga.hiddenNodes, ga.outputNodes)
    && ga.bestFitness >= 0.0
    && (ga.bestBrain.Some? ==> Member(ga.bestBrain.value, ga.inputNodes, ga.hiddenNodes, ga.outputNodes))
    && (ga.bestBrain.Some? <==> ga.bestFitness > 0.0)
  }

  /** The initial state: `populationSize` random brains, drawn from `drawn`,
      generation 0, best and average fitness 0 and no best brain. */
  function Initialize(populationSize: nat, mutationRate: real,
                      inputNodes: nat, hiddenNodes: nat, outputNodes: nat,
                      drawn: seq<Drawn>): (ga: GA)
    requires |drawn| == populationSize
    ensures |ga.population| == populationSize
    ensures forall k :: 0 <= k < populationSize ==> ga.population[k] == Random(inputNodes, hiddenNodes, outputNodes, drawn[k])
    ensures ga.generation == 0 && ga.bestFitness == 0.0 && ga.avgFitness == 0.0 && ga.bestBrain.None?
    ensures ga.populationSize == populationSize && ga.mutationRate == mutationRate
    ensures ga.inputNodes == inputNodes && ga.hiddenNodes == hiddenNodes && ga.outputNodes == outputNodes
    ensures (populationSize > 0 && inputNodes > 0 && hiddenNodes > 0 && outputNodes > 0
      && forall k :: 0 <= k < populationSize ==> DrawnFor(drawn[k], inputNodes, hiddenNodes, outputNodes))
      ==> Valid(ga)
  {
    var population := seq(populationSize, k requires 0 <= k < populationSize =>
      Random(inputNodes, hiddenNodes, outputNodes, drawn[k]));
    GA(populationSize, mutationRate, inputNodes, hiddenNodes, outputNodes,
       population, 0, 0.0, 0.0, None)
  }

  // ---------------------------------------------------------------- selection

  /** The default tournament size. */
  const TournamentSize: nat := 5

  /** The indices drawn by `np.random.randint(size, size=k)`. */
  predicate Sampled(sample: seq<nat>, size: nat) {
    forall j :: 0 <= j < |sample| ==> sample[j] < size
  }

  /** The state of the tournament scan: the best index so far (-1 when none),
      its fitness (starting at -1), and where in the sample it was found. */
  datatype Pick = Pick(ix: int, best: real, at: int)

  /** The scan over the sampled indices with strict `>`, so a later tie never
      displaces an earlier winner. */
  function Scan(fitness: seq<real>, sample: seq<nat>): (p: Pick)
    requires Sampled(sample, |fitness|)
    ensures p.best >= -1.0
    ensures p.ix == -1 ==> p.best == -1.0
    ensures forall j :: 0 <= j < |sample| ==> fitness[sample[j]] <= p.best
    ensures p.ix == -1 <==> forall j :: 0 <= j < |sample| ==> fitness[sample[j]] <= -1.0
    ensures p.ix != -1 ==>
      && 0 <= p.at < |sample| && p.ix == sample[p.at] && fitness[p.ix] == p.best
      && forall j :: 0 <= j < p.at ==> fitness[sample[j]] < p.best
    decreases |sample|
  {
    if |sample| == 0 then Pick(-1, -1.0, -1)
    else
      var n := |sample| - 1;
      var p := Scan(fitness, sample[..n]);
      assert forall j :: 0 <= j < n ==> sample[..n][j] == sample[j];
      var f := fitness[sample[n]];
      if f > p.best then Pick(sample[n], f, n) else p
  }

  /** Tournament selection. When some sampled fitness beats -1 the winner is
      the earliest sampled index holding the largest sampled fitness; when
      none does, the index stays -1 and Python's negative indexing returns the
      last member of the population. */
  function Tournament(fitness: seq<real>, sample: seq<nat>): (ix: nat)
    requires |fitness| > 0 && Sampled(sample, |fitness|)
    ensures ix < |fitness|
    ensures (exists j :: 0 <= j < |sample| && fitness[sample[j]] > -1.0) ==>
      && (forall j :: 0 <= j < |sample| ==> fitness[sample[j]] <= fitness[ix])
      && exists a :: 0 <= a < |sample| && sample[a] == ix &&
           forall j :: 0 <= j < a ==> fitness[sample[j]] < fitness[ix]
    ensures (forall j :: 0 <= j < |sample| ==> fitness[sample[j]] <= -1.0) ==> ix == |fitness| - 1
  {
    var p := Scan(fitness, sample);
    if p.ix == -1 then |fitness| - 1 else p.ix
  }

  /** With fitness floored at 1 (the guarantee of `SnakeAgent.FloorFitness`,
      which every fitness passes through) the -1 fallback can never be taken:
      any non-empty sample yields a sampled winner. */
  lemma FlooredTournamentPicksSample(fitness: seq<real>, sample: seq<nat>)
    requires |fitness| > 0 && Sampled(sample, |fitness|) && |sample| > 0
    requires forall k :: 0 <= k < |fitness| ==> fitness[k] >= 1.0
    ensures Scan(fitness, sample).ix != -1
    ensures exists a :: 0 <= a < |sample| && sample[a] == Tournament(fitness, sample)
  {
    assert fitness[sample[0]] > -1.0;
  }

  // --------------------------------------------------------------- evaluation

  /** Left-to-right sum, as the evaluation loop accumulates it. */
  function Sum(s: seq<real>): real
    decreases |s|
  {
    if |s| == 0 then 0.0 else Sum(s[..|s| - 1]) + s[|s| - 1]
  }

  /** The evaluation loop's accumulators: the running total, the best fitness
      of this generation (starting at 0), and the best fitness and brain ever. */
  datatype Tally = Tally(total: real, maxThisGen: real, best: real, brain: Option<Network>)

  /** The evaluation loop over the population and its fitness values, from
      the best fitness and brain carried over from earlier generations. */
  function Evaluate(population: seq<Network>, fitness: seq<real>, best: real, brain: Option<Network>): (t: Tally)
    requires |fitness| == |population|
    ensures t.total == Sum(fitness)
    // this generation's maximum, floored at 0
    ensures 0.0 <= t.maxThisGen && forall k :: 0 <= k < |fitness| ==> fitness[k] <= t.maxThisGen
    ensures t.maxThisGen == 0.0 || exists k :: 0 <= k < |fitness| && fitness[k] == t.maxThisGen
    // from a non-negative start, the best ever bounds this generation's maximum
    ensures 0.0 <= best ==> t.maxThisGen <= t.best
    // the best ever never drops, and from a non-negative start it is the
    // maximum of the old best and every fitness
    ensures t.best >= best
    ensures 0.0 <= best ==> forall k :: 0 <= k < |fitness| ==> fitness[k] <= t.best
    // the brain changes only on a strict improvement, to the brain that made it
    ensures t.best == best ==> t.brain == brain
    ensures t.best > best ==>
      exists k :: 0 <= k < |fitness| && fitness[k] == t.best && t.brain == Some(population[k])
    // on a tie the first individual to reach the new best keeps the brain
    ensures 0.0 <= best && t.best > best ==>
      exists k :: 0 <= k < |fitness| && fitness[k] == t.best && t.brain == Some(population[k])
        && forall j :: 0 <= j < k ==> fitness[j] < t.best
    decreases |fitness|
  {
    if |fitness| == 0 then Tally(0.0, 0.0, best, brain)
    else
      var n := |fitness| - 1;
      var t := Evaluate(population[..n], fitness[..n], best, brain);
      assert forall k :: 0 <= k < n ==> fitness[..n][k] == fitness[k] && population[..n][k] == population[k];
      var f := fitness[n];
      var total := t.total + f;
      if f > t.maxThisGen then
        if f > t.best then Tally(total, f, f, Some(Clone(population[n])))
        else Tally(total, f, t.best, t.brain)
      else Tally(total, t.maxThisGen, t.best, t.brain)
  }

  // ----------------------------------------------------------------- breeding

  /** The random draws one child consumes: two tournament samples, the four
      crossover split points and the mutation draws. */
  datatype BreedDraws = BreedDraws(sample1: seq<nat>, sample2: seq<nat>, splits: Splits, mutation: MutationDraws)

  /** The draws fit a population of `size` brains with the given node counts:
      two samples of the default tournament size with indices below the
      population size, split points below each tensor's size, one uniform
      and one Gaussian per entry. */
  predicate BreedReady(d: BreedDraws, size: nat, inputNodes: nat, hiddenNodes: nat, outputNodes: nat) {
    && |d.sample1| == TournamentSize && |d.sample2| == TournamentSize
    && Sampled(d.sample1, size) && Sampled(d.sample2, size)
    && d.splits.ih < hiddenNodes * inputNodes && d.splits.ho < outputNodes * hiddenNodes
    && d.splits.bh < hiddenNodes && d.splits.bo < outputNodes
    && SizedDraws(d.mutation.ih, hiddenNodes * inputNodes)
    && SizedDraws(d.mutation.ho, outputNodes * hiddenNodes)
    && SizedDraws(d.mutation.bh, hiddenNodes)
    && SizedDraws(d.mutation.bo, outputNodes)
  }

  /** One child: two tournament winners, crossed over, then mutated. */
  function Breed(population: seq<Network>, fitness: seq<real>, rate: real, d: BreedDraws,
                 inputNodes: nat, hiddenNodes: nat, outputNodes: nat): (child: Network)
    requires |population| > 0 && |fitness| == |population|
    requires AllMembers(population, inputNodes, hiddenNodes, outputNodes)
    requires BreedReady(d, |population|, inputNodes, hiddenNodes, outputNodes)
    ensures Member(child, inputNodes, hiddenNodes, outputNodes)
  {
    var p1 := population[Tournament(fitness, d.sample1)];
    var p2 := population[Tournament(fitness, d.sample2)];
    Mutate(Crossover(p1, p2, d.splits), rate, d.mutation)
  }

  /** One child tensor, entry by entry: the first winner's entry below the
      split and the second winner's from it on, with the scaled Gaussian
      added where the mask bit is set. */
  predicate BredTensor(c: seq<real>, a: seq<real>, b: seq<real>, mid: nat, m: TensorDraws, rate: real) {
    && |c| == |a| == |b| == |m.uniform| == |m.gauss|
    && forall k :: 0 <= k < |c| ==>
         var spliced := if k < mid then a[k] else b[k];
         c[k] == (if m.uniform[k] < rate then spliced + m.gauss[k] * NoiseScale else spliced)
  }

  /** The child's makeup: the crossover of two tournament winners, mutated,
      in each of its four tensors. */
  lemma BreedFromWinners(population: seq<Network>, fitness: seq<real>, rate: real, d: BreedDraws,
                         inputNodes: nat, hiddenNodes: nat, outputNodes: nat)
    requires |population| > 0 && |fitness| == |population|
    requires AllMembers(population, inputNodes, hiddenNodes, outputNodes)
    requires BreedReady(d, |population|, inputNodes, hiddenNodes, outputNodes)
    ensures var p1 := population[Tournament(fitness, d.sample1)];
      var p2 := population[Tournament(fitness, d.sample2)];
      var child := Breed(population, fitness, rate, d, inputNodes, hiddenNodes, outputNodes);
      && BredTensor(child.weightsIH.data, p1.weightsIH.data, p2.weightsIH.data, d.splits.ih, d.mutation.ih, rate)
      && BredTensor(child.weightsHO.data, p1.weightsHO.data, p2.weightsHO.data, d.splits.ho, d.mutation.ho, rate)
      && BredTensor(child.biasH.data, p1.biasH.data, p2.biasH.data, d.splits.bh, d.mutation.bh, rate)
      && BredTensor(child.biasO.data, p1.biasO.data, p2.biasO.data, d.splits.bo, d.mutation.bo, rate)
  {
    var p1 := population[Tournament(fitness, d.sample1)];
    var p2 := population[Tournament(fitness, d.sample2)];
    var crossed := Crossover(p1, p2, d.splits);
    var child := Mutate(crossed, rate, d.mutation);
    BredFromParts(child.weightsIH.data, crossed.weightsIH.data, p1.weightsIH.data, p2.weightsIH.data,
                  d.splits.ih, d.mutation.ih, rate);
    BredFromParts(child.weightsHO.data, crossed.weightsHO.data, p1.weightsHO.data, p2.weightsHO.data,
                  d.splits.ho, d.mutation.ho, rate);
    BredFromParts(child.biasH.data, crossed.biasH.data, p1.biasH.data, p2.biasH.data,
                  d.splits.bh, d.mutation.bh, rate);
    BredFromParts(child.biasO.data, crossed.biasO.data, p1.biasO.data, p2.biasO.data,
                  d.splits.bo, d.mutation.bo, rate);
  }

  /** A spliced tensor mutated entry by entry is a bred tensor. */
  lemma BredFromParts(c: seq<real>, x: seq<real>, a: seq<real>, b: seq<real>, mid: nat,
                      m: TensorDraws, rate: real)
    requires mid <= |a| == |b| && SplicedFrom(x, a, b, mid)
    requires |c| == |x| == |m.uniform| == |m.gauss|
    requires forall k :: 0 <= k < |x| && m.uniform[k] >= rate ==> c[k] == x[k]
    requires forall k :: 0 <= k < |x| && m.uniform[k] < rate ==> c[k] == x[k] + m.gauss[k] * NoiseScale
    ensures BredTensor(c, a, b, mid, m, rate)
  {
  }

  /** How many brains survive unchanged into the next generation. */
  function EliteCount(brain: Option<Network>): nat {
    if brain.Some? then 1 else 0
  }

  /** Breed `count` children, child `k` from draw `k`. */
  function Offspring(population: seq<Network>, fitness: seq<real>, rate: real, draws: seq<BreedDraws>,
                     count: nat, inputNodes: nat, hiddenNodes: nat, outputNodes: nat): (o: seq<Network>)
    requires |population| > 0 && |fitness| == |population| && count <= |draws|
    requires AllMembers(population, inputNodes, hiddenNodes, outputNodes)
    requires forall k :: 0 <= k < |draws| ==>
      BreedReady(draws[k], |population|, inputNodes, hiddenNodes, outputNodes)
    ensures |o| == count
    ensures AllMembers(o, inputNodes, hiddenNodes, outputNodes)
    ensures forall k :: 0 <= k < count ==>
      o[k] == Breed(population, fitness, rate, draws[k], inputNodes, hiddenNodes, outputNodes)
  {
    seq(count, k requires 0 <= k < count =>
      Breed(population, fitness, rate, draws[k], inputNodes, hiddenNodes, outputNodes))
  }

  /** The next population: the best brain (if any) first, then children
      bred from the current population, one per draw, up to the population
      size. */
  function NextPopulation(population: seq<Network>, fitness: seq<real>, rate: real,
                          draws: seq<BreedDraws>, brain: Option<Network>,
                          inputNodes: nat, hiddenNodes: nat, outputNodes: nat): (p: seq<Network>)
    requires |population| > 0 && |fitness| == |population| && |draws| >= |population|
    requires AllMembers(population, inputNodes, hiddenNodes, outputNodes)
    requires brain.Some? ==> Member(brain.value, inputNodes, hiddenNodes, outputNodes)
    requires forall k :: 0 <= k < |draws| ==>
      BreedReady(draws[k], |population|, inputNodes, hiddenNodes, outputNodes)
    ensures |p| == |population|
    ensures AllMembers(p, inputNodes, hiddenNodes, outputNodes)
    ensures brain.Some? ==> p[0] == brain.value
    ensures p[EliteCount(brain)..] == Offspring(population, fitness, rate, draws, |population| - EliteCount(brain),
                                                inputNodes, hiddenNodes, outputNodes)
  {
    var elite := if brain.Some? then [Clone(brain.value)] else [];
    var offspring := Offspring(population, fitness, rate, draws, |population| - |elite|,
                               inputNodes, hiddenNodes, outputNodes);
    assert (elite + offspring)[|elite|..] == offspring;
    elite + offspring
  }

  /** One generation: evaluate, keep the best brain ever (if any) as the
      first member, and fill the rest with bred children. Child `k` uses
      `draws[k]`; `draws` holds at least as many as could be needed. */
  function RunGeneration(ga: GA, fitness: seq<real>, draws: seq<BreedDraws>): (next: GA)
    requires Valid(ga) && |fitness| == ga.populationSize && |draws| >= ga.populationSize
    requires forall k :: 0 <= k < |draws| ==>
      BreedReady(draws[k], ga.populationSize, ga.inputNodes, ga.hiddenNodes, ga.outputNodes)
    ensures Valid(next)
    ensures next.generation == ga.generation + 1
    ensures next.populationSize == ga.populationSize && |next.population| == ga.populationSize
    ensures next.mutationRate == ga.mutationRate
    ensures next.inputNodes == ga.inputNodes && next.hiddenNodes == ga.hiddenNodes
    ensures next.outputNodes == ga.outputNodes
    // the best fitness ever is the maximum of the old best and this generation
    ensures next.bestFitness >= ga.bestFitness
    ensures forall k :: 0 <= k < |fitness| ==> fitness[k] <= next.bestFitness
    ensures next.bestFitness == ga.bestFitness ||
      exists k :: 0 <= k < |fitness| && fitness[k] == next.bestFitness
    // the best brain is replaced only on strict improvement, by the improver
    ensures next.bestFitness == ga.bestFitness ==> next.bestBrain == ga.bestBrain
    ensures next.bestFitness > ga.bestFitness ==>
      exists k :: 0 <= k < |fitness| && fitness[k] == next.bestFitness && next.bestBrain == Some(ga.population[k])
        && forall j :: 0 <= j < k ==> fitness[j] < next.bestFitness
    // elitism: the best brain, when there is one, leads the new population
    ensures next.bestBrain.Some? ==> next.population[0] == next.bestBrain.value
    // the other slots hold the children bred from the old population
    ensures next.population[EliteCount(next.bestBrain)..] ==
      Offspring(ga.population, fitness, ga.mutationRate, draws, ga.populationSize - EliteCount(next.bestBrain),
                ga.inputNodes, ga.hiddenNodes, ga.outputNodes)
    ensures next.avgFitness == Sum(fitness) / ga.populationSize as real
  {
    var t := Evaluate(ga.population, fitness, ga.bestFitness, ga.bestBrain);
    assert t.brain.Some? ==> Member(t.brain.value, ga.inputNodes, ga.hiddenNodes, ga.outputNodes);
    assert t.brain.Some? <==> t.best > 0.0;
    var population := NextPopulation(ga.population, fitness, ga.mutationRate, draws, t.brain,
                                      ga.inputNodes, ga.hiddenNodes, ga.outputNodes);
    ga.(generation := ga.generation + 1,
        population := population,
        bestFitness := t.best,
        avgFitness := t.total / ga.populationSize as real,
        bestBrain := t.brain)
  }

  /** With fitness floored at 1 (the guarantee of `SnakeAgent.FloorFitness`),
      the first generation always finds a best brain, which then leads the
      second population unchanged. */
  lemma FirstGenerationKeepsElite(ga: GA, fitness: seq<real>, draws: seq<BreedDraws>)
    requires Valid(ga) && ga.generation == 0 && ga.bestFitness == 0.0
    requires |fitness| == ga.populationSize && |draws| >= ga.populationSize
    requires forall k :: 0 <= k < |draws| ==>
      BreedReady(draws[k], ga.populationSize, ga.inputNodes, ga.hiddenNodes, ga.outputNodes)
    requires forall k :: 0 <= k < |fitness| ==> fitness[k] >= 1.0
    ensures var next := RunGeneration(ga, fitness, draws);
      && next.generation == 1 && next.bestFitness >= 1.0 && next.bestBrain.Some?
      && next.population[0] == next.bestBrain.value
      && next.population[1..] == Offspring(ga.population, fitness, ga.mutationRate, draws,
                                           ga.populationSize - 1, ga.inputNodes, ga.hiddenNodes, ga.outputNodes)
  {
    var next := RunGeneration(ga, fitness, draws);
    assert fitness[0] <= next.bestFitness;
  }

  /** The best brain saved so far: present exactly when some fitness has
      beaten 0, and then of the trainer's size. */
  function GetBestBrain(ga: GA): (b: Option<Network>)
    requires Valid(ga)
    ensures b.Some? <==> ga.bestFitness > 0.0
    ensures b.Some? ==> Member(b.value, ga.inputNodes, ga.hiddenNodes, ga.outputNodes)
  {
    ga.bestBrain
  }

  /** The training loop: one generation per fitness vector. */
  function Train(ga: GA, fitness: seq<seq<real>>, draws: seq<seq<BreedDraws>>): (r: GA)
    requires Valid(ga) && |draws| == |fitness|
    requires forall g :: 0 <= g < |fitness| ==> |fitness[g]| == ga.populationSize
    requires forall g :: 0 <= g < |draws| ==> |draws[g]| >= ga.populationSize
    requires forall g, k :: 0 <= g < |draws| && 0 <= k < |draws[g]| ==>
      BreedReady(draws[g][k], ga.populationSize, ga.inputNodes, ga.hiddenNodes, ga.outputNodes)
    ensures Valid(r)
    ensures r.generation == ga.generation + |fitness|
    ensures r.populationSize == ga.populationSize
    // the best fitness never decreases and bounds every fitness ever seen
    ensures r.bestFitness >= ga.bestFitness
    ensures forall g, k :: 0 <= g < |fitness| && 0 <= k < |fitness[g]| ==> fitness[g][k] <= r.bestFitness
    decreases |fitness|
  {
    if |fitness| == 0 then ga
    else
      var next := RunGeneration(ga, fitness[0], draws[0]);
      assert forall g :: 0 <= g < |fitness| - 1 ==> fitness[1..][g] == fitness[g + 1] && draws[1..][g] == draws[g + 1];
      var r := Train(next, fitness[1..], draws[1..]);
      assert forall g, k :: 1 <= g < |fitness| && 0 <= k < |fitness[g]| ==> fitness[g][k] <= r.bestFitness by {
        forall g, k | 1 <= g < |fitness| && 0 <= k < |fitness[g]|
          ensures fitness[g][k] <= r.bestFitness
        {
          assert fitness[g] == fitness[1..][g - 1];
        }
      }
      r
  }
}

=== FILE: heading.dfy ===
/** How the snake's network output becomes a new heading: the decision is the
    first index of the largest output, and the decision turns the heading
    left, keeps it, or turns it right along the clockwise list
    Up, Right, Down, Left. */
module Heading {

  import opened Constants

  /** The clockwise list of headings that the turn indexes into. */
  const Clockwise: seq<Dir> := [Up, Right, Down, Left]

  /** The heading at place `i` of `Clockwise`. */
  function ClockwiseAt(i: nat): (d: Dir)
    requires i < 4
    ensures d == Clockwise[i]
  {
    if i == 0 then Up else if i == 1 then Right else if i == 2 then Down else Left
  }

  /** Position of a heading in `Clockwise`. */
  function ClockwiseIndex(d: Dir): (i: nat)
    ensures i < 4 && ClockwiseAt(i) == d
  {
    match d
    case Up => 0
    case Right => 1
    case Down => 2
    case Left => 3
  }

  /** The numpy argmax scan: the first index holding the largest value. */
  function ArgMax(s: seq<real>): (i: nat)
    requires |s| > 0
    ensures i < |s|
    ensures forall j :: 0 <= j < |s| ==> s[j] <= s[i]
    ensures forall j :: 0 <= j < i ==> s[j] < s[i]
    decreases |s|
  {
    if |s| == 1 then 0
    else
      var k := ArgMax(s[..|s| - 1]);
      if s[|s| - 1] > s[k] then |s| - 1 else k
  }

  /** The heading the decision asks for, before the reversal guard:
      0 steps back one place in the clockwise list, 2 steps forward one
      place, anything else keeps the current place. */
  function Candidate(decision: int, current: Dir): Dir {
    var i := ClockwiseIndex(current);
    var j := if decision == 0 then (i - 1) % 4
             else if decision == 2 then (i + 1) % 4
             else i;
    ClockwiseAt(j)
  }

  /** Candidate worked out heading by heading. */
  lemma CandidateByCases(decision: int, current: Dir)
    ensures decision == 0 ==> Candidate(decision, current) == RelativeOf(current).left
    ensures decision == 2 ==> Candidate(decision, current) == RelativeOf(current).right
    ensures decision != 0 && decision != 2 ==> Candidate(decision, current) == current
  {
    match current
    case Up =>
    case Right =>
    case Down =>
    case Left =>
  }

  /** What the candidate is, geometrically: a quarter turn anticlockwise for
      0, clockwise for 2, no change otherwise; never the reverse heading. */
  lemma CandidateGeometry(decision: int, current: Dir)
    ensures decision == 0 ==> Vec(Candidate(decision, current)) == RotateAnticlockwise(Vec(current))
    ensures decision == 2 ==> Vec(Candidate(decision, current)) == RotateClockwise(Vec(current))
    ensures decision != 0 && decision != 2 ==> Candidate(decision, current) == current
    ensures Neg(Vec(Candidate(decision, current))) != Vec(current)
  {
    CandidateByCases(decision, current);
    match current
    case Up =>
    case Right =>
    case Down =>
    case Left =>
  }

  /** The turn, with the guard that refuses a candidate pointing straight back. */
  function Turn(decision: int, current: Dir): (r: Dir)
    // the snake never reverses onto its own neck
    ensures Vec(r) != Neg(Vec(current))
  {
    var candidate := Candidate(decision, current);
    if Neg(Vec(candidate)) != Vec(current) then candidate
    else
      assert Vec(current) != Neg(Vec(current)) by { NegNeg(Vec(current), Vec(current)); }
      current
  }

  /** What the turn does, geometrically: decision 0 rotates the heading a
      quarter turn anticlockwise, 2 a quarter turn clockwise, anything else
      keeps it, and the result is never the reverse heading. */
  lemma TurnGeometry(decision: int, current: Dir)
    ensures decision == 0 ==> Vec(Turn(decision, current)) == RotateAnticlockwise(Vec(current))
    ensures decision == 2 ==> Vec(Turn(decision, current)) == RotateClockwise(Vec(current))
    ensures decision != 0 && decision != 2 ==> Turn(decision, current) == current
    ensures Vec(Turn(decision, current)) != Neg(Vec(current))
  {
    var candidate := Candidate(decision, current);
    CandidateGeometry(decision, current);
    assert Vec(candidate) != Neg(Vec(current)) by {
      NegNeg(Vec(candidate), Vec(current));
    }
  }

  lemma NegNeg(a: Cell, b: Cell)
    requires Neg(a) != b
    ensures a != Neg(b)
  {
  }

  /** The reversal guard never fires: the candidate is never the opposite
      heading, so the turn always takes it. */
  lemma TurnGuardNeverRejects(decision: int, current: Dir)
    ensures Neg(Vec(Candidate(decision, current))) != Vec(current)
    ensures Turn(decision, current) == Candidate(decision, current)
  {
    CandidateGeometry(decision, current);
  }

  /** The (left, straight, right) headings relative to the current one, as the
      sensing code lists them by hand. */
  datatype Relative = Relative(left: Dir, straight: Dir, right: Dir)

  function RelativeOf(current: Dir): Relative {
    match current
    case Up => Relative(Left, Up, Right)
    case Down => Relative(Right, Down, Left)
    case Left => Relative(Down, Left, Up)
    case Right => Relative(Up, Right, Down)
  }

  /** The sensing table agrees with the turn: the left, straight and right
      headings are what decisions 0, 1 and 2 produce, and left is the
      opposite of right. */
  lemma RelativeMatchesTurn(current: Dir)
    ensures RelativeOf(current).left == Turn(0, current)
    ensures RelativeOf(current).straight == Turn(1, current)
    ensures RelativeOf(current).right == Turn(2, current)
    ensures Vec(RelativeOf(current).left) == Neg(Vec(RelativeOf(current).right))
  {
    RelativeEntry(0, current);
    RelativeEntry(1, current);
    RelativeEntry(2, current);
    LeftOppositeRight(current);
  }

  lemma RelativeEntry(decision: int, current: Dir)
    ensures decision == 0 ==> RelativeOf(current).left == Turn(decision, current)
    ensures decision == 1 ==> RelativeOf(current).straight == Turn(decision, current)
    ensures decision == 2 ==> RelativeOf(current).right == Turn(decision, current)
  {
    TurnGuardNeverRejects(decision, current);
    CandidateByCases(decision, current);
  }

  lemma LeftOppositeRight(current: Dir)
    ensures Vec(RelativeOf(current).left) == Neg(Vec(RelativeOf(current).right))
  {
    match current
    case Up =>
    case Right =>
    case Down =>
    case Left =>
  }
}

=== FILE: network.dfy ===
/** The genome: a two-layer network's four parameter tensors, and the three
    genetic operators on them (clone, single-point crossover, masked
    mutation). A tensor is its shape plus its row-major flattening; random
    draws (the split points, the mutation mask's uniforms and the Gaussian
    noise) are passed in. */
module NeuralNet {

  import opened Options

  /** A two-dimensional numpy array: its shape and its flattened entries. */
  datatype Tensor = Tensor(rows: nat, cols: nat, data: seq<real>)

  predicate HasShape(t: Tensor, rows: nat, cols: nat) {
    t.rows == rows && t.cols == cols && |t.data| == rows * cols
  }

  datatype Network = Network(
    inputNodes: nat,
    hiddenNodes: nat,
    outputNodes: nat,
    weightsIH: Tensor,   // hidden x input
    weightsHO: Tensor,   // output x hidden
    biasH: Tensor,       // hidden x 1
    biasO: Tensor)       // output x 1

  /** The four tensors have the shapes the node counts dictate. */
  predicate WellFormed(n: Network) {
    && HasShape(n.weightsIH, n.hiddenNodes, n.inputNodes)
    && HasShape(n.weightsHO, n.outputNodes, n.hiddenNodes)
    && HasShape(n.biasH, n.hiddenNodes, 1)
    && HasShape(n.biasO, n.outputNodes, 1)
  }

  /** Four freshly drawn random tensors, one per parameter. */
  datatype Drawn = Drawn(weightsIH: Tensor, weightsHO: Tensor, biasH: Tensor, biasO: Tensor)

  /** The draws have the shapes a network of these node counts needs. */
  predicate DrawnFor(d: Drawn, inputNodes: nat, hiddenNodes: nat, outputNodes: nat) {
    WellFormed(Network(inputNodes, hiddenNodes, outputNodes, d.weightsIH, d.weightsHO, d.biasH, d.biasO))
  }

  /** The constructor: a supplied tensor is stored as given, a missing one is
      replaced by the freshly drawn tensor. */
  function Create(inputNodes: nat, hiddenNodes: nat, outputNodes: nat,
                  weightsIH: Option<Tensor>, weightsHO: Option<Tensor>,
                  biasH: Option<Tensor>, biasO: Option<Tensor>, drawn: Drawn): (n: Network)
    ensures n.inputNodes == inputNodes && n.hiddenNodes == hiddenNodes && n.outputNodes == outputNodes
    ensures weightsIH.Some? ==> n.weightsIH == weightsIH.value
    ensures weightsHO.Some? ==> n.weightsHO == weightsHO.value
    ensures biasH.Some? ==> n.biasH == biasH.value
    ensures biasO.Some? ==> n.biasO == biasO.value
    // a missing tensor is the fresh draw for it
    ensures weightsIH.None? ==> n.weightsIH == drawn.weightsIH
    ensures weightsHO.None? ==> n.weightsHO == drawn.weightsHO
    ensures biasH.None? ==> n.biasH == drawn.biasH
    ensures biasO.None? ==> n.biasO == drawn.biasO
    // correctly shaped draws and correctly shaped supplied tensors give a
    // well-formed network
    ensures (&& DrawnFor(drawn, inputNodes, hiddenNodes, outputNodes)
             && (weightsIH.Some? ==> HasShape(weightsIH.value, hiddenNodes, inputNodes))
             && (weightsHO.Some? ==> HasShape(weightsHO.value, outputNodes, hiddenNodes))
             && (biasH.Some? ==> HasShape(biasH.value, hiddenNodes, 1))
             && (biasO.Some? ==> HasShape(biasO.value, outputNodes, 1))) ==> WellFormed(n)
  {
    Network(inputNodes, hiddenNodes, outputNodes,
      if weightsIH.Some? then weightsIH.value else drawn.weightsIH,
      if weightsHO.Some? then weightsHO.value else drawn.weightsHO,
      if biasH.Some? then biasH.value else drawn.biasH,
      if biasO.Some? then biasO.value else drawn.biasO)
  }

  /** A fresh random network of the given size. */
  function Random(inputNodes: nat, hiddenNodes: nat, outputNodes: nat, drawn: Drawn): Network {
    Create(inputNodes, hiddenNodes, outputNodes, None, None, None, None, drawn)
  }

  /** The deep copy: every tensor is passed to the constructor, so nothing
      random is drawn and the copy equals the original. */
  function Clone(n: Network): (c: Network)
    ensures c == n
  {
    Create(n.inputNodes, n.hiddenNodes, n.outputNodes,
      Some(n.weightsIH), Some(n.weightsHO), Some(n.biasH), Some(n.biasO),
      Drawn(n.weightsIH, n.weightsHO, n.biasH, n.biasO))
  }

  // ---------------------------------------------------------------- crossover

  /** The pointwise splice rule: below `mid` from `a`, from `mid` on from `b`. */
  predicate SplicedFrom(r: seq<real>, a: seq<real>, b: seq<real>, mid: nat)
    requires mid <= |a|
  {
    && |r| == |b|
    && forall k :: 0 <= k < |r| ==> r[k] == (if k < mid then a[k] else b[k])
  }

  /** Concatenate the head of one flattening with the tail of the other. */
  function Splice(a: seq<real>, b: seq<real>, mid: nat): (r: seq<real>)
    requires mid <= |a| && mid <= |b|
    ensures SplicedFrom(r, a, b, mid)
  {
    a[..mid] + b[mid..]
  }

  /** Single-point crossover of one tensor, reshaped to the receiver's shape.
      The split is drawn from [0, size) and the partner must flatten to the
      same number of entries, or the reshape fails. */
  function CrossTensor(t: Tensor, u: Tensor, mid: nat): (r: Tensor)
    requires mid < |t.data| && |u.data| == |t.data|
    ensures r.rows == t.rows && r.cols == t.cols
    ensures SplicedFrom(r.data, t.data, u.data, mid)
  {
    Tensor(t.rows, t.cols, Splice(t.data, u.data, mid))
  }

  /** The four independently drawn split points. */
  datatype Splits = Splits(ih: nat, ho: nat, bh: nat, bo: nat)

  /** What crossover demands: each split below its tensor's size, and the
      partner's tensors of the same sizes. */
  predicate CanCross(n: Network, partner: Network, s: Splits) {
    && s.ih < |n.weightsIH.data| && |partner.weightsIH.data| == |n.weightsIH.data|
    && s.ho < |n.weightsHO.data| && |partner.weightsHO.data| == |n.weightsHO.data|
    && s.bh < |n.biasH.data| && |partner.biasH.data| == |n.biasH.data|
    && s.bo < |n.biasO.data| && |partner.biasO.data| == |n.biasO.data|
  }

  /** The child of `n` and `partner`: the receiver's node counts and shapes,
      each tensor spliced at its own split point. */
  function Crossover(n: Network, partner: Network, s: Splits): (child: Network)
    requires CanCross(n, partner, s)
    ensures child.inputNodes == n.inputNodes && child.hiddenNodes == n.hiddenNodes
    ensures child.outputNodes == n.outputNodes
    ensures WellFormed(n) ==> WellFormed(child)
    ensures SplicedFrom(child.weightsIH.data, n.weightsIH.data, partner.weightsIH.data, s.ih)
    ensures SplicedFrom(child.weightsHO.data, n.weightsHO.data, partner.weightsHO.data, s.ho)
    ensures SplicedFrom(child.biasH.data, n.biasH.data, partner.biasH.data, s.bh)
    ensures SplicedFrom(child.biasO.data, n.biasO.data, partner.biasO.data, s.bo)
  {
    Network(n.inputNodes, n.hiddenNodes, n.outputNodes,
      CrossTensor(n.weightsIH, partner.weightsIH, s.ih),
      CrossTensor(n.weightsHO, partner.weightsHO, s.ho),
      CrossTensor(n.biasH, partner.biasH, s.bh),
      CrossTensor(n.biasO, partner.biasO, s.bo))
  }

  /** A splice whose split lies below the length ends with the partner's
      last entry. */
  lemma SpliceEndsWithPartner(r: seq<real>, a: seq<real>, b: seq<real>, mid: nat)
    requires mid <= |a| && mid < |b| && SplicedFrom(r, a, b, mid)
    ensures r[|r| - 1] == b[|b| - 1]
  {
  }

  /** Because every split is below the tensor size, the last entry of every
      child tensor comes from the partner. */
  lemma CrossoverLastFromPartner(n: Network, partner: Network, s: Splits)
    requires CanCross(n, partner, s)
    ensures var c := Crossover(n, partner, s);
      && c.weightsIH.data[|c.weightsIH.data| - 1] == partner.weightsIH.data[|partner.weightsIH.data| - 1]
      && c.weightsHO.data[|c.weightsHO.data| - 1] == partner.weightsHO.data[|partner.weightsHO.data| - 1]
      && c.biasH.data[|c.biasH.data| - 1] == partner.biasH.data[|partner.biasH.data| - 1]
      && c.biasO.data[|c.biasO.data| - 1] == partner.biasO.data[|partner.biasO.data| - 1]
  {
    var c := Crossover(n, partner, s);
    SpliceEndsWithPartner(c.weightsIH.data, n.weightsIH.data, partner.weightsIH.data, s.ih);
    SpliceEndsWithPartner(c.weightsHO.data, n.weightsHO.data, partner.weightsHO.data, s.ho);
    SpliceEndsWithPartner(c.biasH.data, n.biasH.data, partner.biasH.data, s.bh);
    SpliceEndsWithPartner(c.biasO.data, n.biasO.data, partner.biasO.data, s.bo);
  }

  /** A splice at 0 is the partner's flattening, and a splice of a sequence
      with itself is that sequence, wherever the split. */
  lemma SpliceExtremes(r: seq<real>, a: seq<real>, b: seq<real>, mid: nat)
    requires mid <= |a| && SplicedFrom(r, a, b, mid)
    ensures mid == 0 ==> r == b
    ensures a == b ==> r == a
  {
    if mid == 0 {
      assert forall k :: 0 <= k < |r| ==> r[k] == b[k];
    }
    if a == b {
      assert forall k :: 0 <= k < |r| ==> r[k] == a[k];
    }
  }

  /** All splits at 0 give the partner's tensors; when the partner has the
      receiver's node counts and is well-formed, the child is the partner. */
  lemma CrossoverAtZero(n: Network, partner: Network)
    requires CanCross(n, partner, Splits(0, 0, 0, 0))
    ensures var c := Crossover(n, partner, Splits(0, 0, 0, 0));
      && c.weightsIH.data == partner.weightsIH.data && c.weightsHO.data == partner.weightsHO.data
      && c.biasH.data == partner.biasH.data && c.biasO.data == partner.biasO.data
    ensures (WellFormed(n) && WellFormed(partner) && n.inputNodes == partner.inputNodes
      && n.hiddenNodes == partner.hiddenNodes && n.outputNodes == partner.outputNodes) ==>
      Crossover(n, partner, Splits(0, 0, 0, 0)) == partner
  {
    var c := Crossover(n, partner, Splits(0, 0, 0, 0));
    SpliceExtremes(c.weightsIH.data, n.weightsIH.data, partner.weightsIH.data, 0);
    SpliceExtremes(c.weightsHO.data, n.weightsHO.data, partner.weightsHO.data, 0);
    SpliceExtremes(c.biasH.data, n.biasH.data, partner.biasH.data, 0);
    SpliceExtremes(c.biasO.data, n.biasO.data, partner.biasO.data, 0);
  }

  /** Crossing a network with itself, or with an equal copy, reproduces it
      for any split points. */
  lemma CrossoverWithSelf(n: Network, s: Splits)
    requires CanCross(n, n, s)
    ensures Crossover(n, n, s) == n
    ensures Crossover(n, Clone(n), s) == n
  {
    var c := Crossover(n, n, s);
    SpliceExtremes(c.weightsIH.data, n.weightsIH.data, n.weightsIH.data, s.ih);
    SpliceExtremes(c.weightsHO.data, n.weightsHO.data, n.weightsHO.data, s.ho);
    SpliceExtremes(c.biasH.data, n.biasH.data, n.biasH.data, s.bh);
    SpliceExtremes(c.biasO.data, n.biasO.data, n.biasO.data, s.bo);
  }

  /** Each child tensor depends on its own split point only: two crossovers
      that agree on one split agree on that tensor, whatever the others. */
  lemma CrossoverSplitsIndependent(n: Network, partner: Network, s: Splits, t: Splits)
    requires CanCross(n, partner, s) && CanCross(n, partner, t)
    ensures s.ih == t.ih ==> Crossover(n, partner, s).weightsIH == Crossover(n, partner, t).weightsIH
    ensures s.ho == t.ho ==> Crossover(n, partner, s).weightsHO == Crossover(n, partner, t).weightsHO
    ensures s.bh == t.bh ==> Crossover(n, partner, s).biasH == Crossover(n, partner, t).biasH
    ensures s.bo == t.bo ==> Crossover(n, partner, s).biasO == Crossover(n, partner, t).biasO
  {
  }

  // ----------------------------------------------------------------- mutation

  /** The noise scale applied to the Gaussian draws. */
  const NoiseScale: real := 0.1

  /** The random draws for one tensor: a uniform in [0, 1) for the mask and a
      standard Gaussian for the noise, one of each per entry. */
  datatype TensorDraws = TensorDraws(uniform: seq<real>, gauss: seq<real>)

  /** One uniform and one Gaussian per entry of a tensor of `size` entries. */
  predicate SizedDraws(d: TensorDraws, size: nat) {
    |d.uniform| == size && |d.gauss| == size
  }

  predicate Fits(d: TensorDraws, t: Tensor) {
    SizedDraws(d, |t.data|)
  }

  /** Every uniform lies in [0, 1), as `np.random.rand` promises. */
  predicate UnitUniforms(d: TensorDraws) {
    forall k :: 0 <= k < |d.uniform| ==> 0.0 <= d.uniform[k] < 1.0
  }

  datatype MutationDraws = MutationDraws(ih: TensorDraws, ho: TensorDraws, bh: TensorDraws, bo: TensorDraws)

  predicate DrawsFit(d: MutationDraws, n: Network) {
    Fits(d.ih, n.weightsIH) && Fits(d.ho, n.weightsHO) && Fits(d.bh, n.biasH) && Fits(d.bo, n.biasO)
  }

  predicate AllUnit(d: MutationDraws) {
    UnitUniforms(d.ih) && UnitUniforms(d.ho) && UnitUniforms(d.bh) && UnitUniforms(d.bo)
  }

  /** The effect on one entry: masked entries get the scaled noise added,
      the others stay. */
  function Perturbed(x: real, u: real, g: real, rate: real): real {
    if u < rate then x + g * NoiseScale else x
  }

  /** Add `mask * noise` entry by entry, where the mask bit is `u < rate`. */
  function Perturb(data: seq<real>, u: seq<real>, g: seq<real>, rate: real): (r: seq<real>)
    requires |u| == |data| && |g| == |data|
    ensures |r| == |data|
    ensures forall k :: 0 <= k < |r| ==> u[k] >= rate ==> r[k] == data[k]
    ensures forall k :: 0 <= k < |r| ==> u[k] < rate ==> r[k] == data[k] + g[k] * NoiseScale
    decreases |data|
  {
    if |data| == 0 then []
    else
      var n := |data| - 1;
      Perturb(data[..n], u[..n], g[..n], rate) + [Perturbed(data[n], u[n], g[n], rate)]
  }

  predicate SameShape(t: Tensor, u: Tensor) {
    t.rows == u.rows && t.cols == u.cols && |t.data| == |u.data|
  }

  function MutateTensor(t: Tensor, rate: real, d: TensorDraws): (r: Tensor)
    requires Fits(d, t)
    ensures SameShape(r, t)
  {
    Tensor(t.rows, t.cols, Perturb(t.data, d.uniform, d.gauss, rate))
  }

  /** Masked mutation of all four tensors. */
  function Mutate(n: Network, rate: real, d: MutationDraws): (m: Network)
    requires DrawsFit(d, n)
    ensures m.inputNodes == n.inputNodes && m.hiddenNodes == n.hiddenNodes
    ensures m.outputNodes == n.outputNodes
    // every tensor keeps its shape
    ensures SameShape(m.weightsIH, n.weightsIH) && SameShape(m.weightsHO, n.weightsHO)
    ensures SameShape(m.biasH, n.biasH) && SameShape(m.biasO, n.biasO)
    ensures WellFormed(n) ==> WellFormed(m)
    // an entry whose mask bit is clear is left as it was
    ensures forall k :: 0 <= k < |n.weightsIH.data| && d.ih.uniform[k] >= rate ==>
      m.weightsIH.data[k] == n.weightsIH.data[k]
    ensures forall k :: 0 <= k < |n.weightsHO.data| && d.ho.uniform[k] >= rate ==>
      m.weightsHO.data[k] == n.weightsHO.data[k]
    ensures forall k :: 0 <= k < |n.biasH.data| && d.bh.uniform[k] >= rate ==>
      m.biasH.data[k] == n.biasH.data[k]
    ensures forall k :: 0 <= k < |n.biasO.data| && d.bo.uniform[k] >= rate ==>
      m.biasO.data[k] == n.biasO.data[k]
    // an entry whose mask bit is set gets its Gaussian, scaled, added
    ensures forall k :: 0 <= k < |n.weightsIH.data| && d.ih.uniform[k] < rate ==>
      m.weightsIH.data[k] == n.weightsIH.data[k] + d.ih.gauss[k] * NoiseScale
    ensures forall k :: 0 <= k < |n.weightsHO.data| && d.ho.uniform[k] < rate ==>
      m.weightsHO.data[k] == n.weightsHO.data[k] + d.ho.gauss[k] * NoiseScale
    ensures forall k :: 0 <= k < |n.biasH.data| && d.bh.uniform[k] < rate ==>
      m.biasH.data[k] == n.biasH.data[k] + d.bh.gauss[k] * NoiseScale
    ensures forall k :: 0 <= k < |n.biasO.data| && d.bo.uniform[k] < rate ==>
      m.biasO.data[k] == n.biasO.data[k] + d.bo.gauss[k] * NoiseScale
  {
    n.(weightsIH := MutateTensor(n.weightsIH, rate, d.ih),
       weightsHO := MutateTensor(n.weightsHO, rate, d.ho),
       biasH := MutateTensor(n.biasH, rate, d.bh),
       biasO := MutateTensor(n.biasO, rate, d.bo))
  }

  /** With no mask bit set a tensor comes back unchanged. */
  lemma MutateTensorUnmasked(t: Tensor, rate: real, d: TensorDraws)
    requires Fits(d, t)
    requires forall k :: 0 <= k < |d.uniform| ==> d.uniform[k] >= rate
    ensures MutateTensor(t, rate, d) == t
  {
    var r := MutateTensor(t, rate, d);
    assert forall k :: 0 <= k < |r.data| ==> r.data[k] == t.data[k];
  }

  /** With rate 0 no uniform in [0, 1) falls below the rate, so mutation
      changes nothing. */
  lemma MutateRateZero(n: Network, d: MutationDraws)
    requires DrawsFit(d, n) && AllUnit(d)
    ensures Mutate(n, 0.0, d) == n
  {
    MutateTensorUnmasked(n.weightsIH, 0.0, d.ih);
    MutateTensorUnmasked(n.weightsHO, 0.0, d.ho);
    MutateTensorUnmasked(n.biasH, 0.0, d.bh);
    MutateTensorUnmasked(n.biasO, 0.0, d.bo);
  }

  /** With rate 1 every uniform in [0, 1) sets its mask bit, so every entry
      moves by its scaled noise. */
  lemma MutateRateOne(n: Network, d: MutationDraws)
    requires DrawsFit(d, n) && AllUnit(d)
    ensures var m := Mutate(n, 1.0, d);
      && (forall k :: 0 <= k < |n.weightsIH.data| ==>
            m.weightsIH.data[k] == n.weightsIH.data[k] + d.ih.gauss[k] * NoiseScale)
      && (forall k :: 0 <= k < |n.weightsHO.data| ==>
            m.weightsHO.data[k] == n.weightsHO.data[k] + d.ho.gauss[k] * NoiseScale)
      && (forall k :: 0 <= k < |n.biasH.data| ==>
            m.biasH.data[k] == n.biasH.data[k] + d.bh.gauss[k] * NoiseScale)
      && (forall k :: 0 <= k < |n.biasO.data| ==>
            m.biasO.data[k] == n.biasO.data[k] + d.bo.gauss[k] * NoiseScale)
  {
  }
}

=== FILE: options.dfy ===
/** An optional value: Python's "maybe None" arguments and attributes. */
module Options {

  datatype Option<+T> = None | Some(value: T)
}

=== FILE: sensing.dfy ===
/** The snake's eight sensors: danger to the left, ahead and to the right,
    which side the food lies on, and the normalised distance to the wall
    ahead and to the left. Everything is relative to the current heading. */
module Sensing {

  import opened Constants
  import opened Heading

  /** A cell is dangerous when it is off the board or on the snake's own body
      (other snakes' bodies are not consulted). */
  predicate IsDanger(pos: Cell, body: seq<Cell>) {
    !InGrid(pos) || pos in body
  }

  /** The cell `k` steps along a heading. */
  function Ahead(c: Cell, d: Dir, k: int): Cell {
    match d
    case Up => Cell(c.x, c.y - k)
    case Down => Cell(c.x, c.y + k)
    case Left => Cell(c.x - k, c.y)
    case Right => Cell(c.x + k, c.y)
  }

  /** Free cells between an in-grid cell and the wall along a heading. */
  function WallGap(c: Cell, d: Dir): int {
    match d
    case Left => c.x
    case Right => GridWidth - 1 - c.x
    case Up => c.y
    case Down => GridHeight - 1 - c.y
  }

  /** Termination measure for the wall scan: how far the board extends
      along the heading from this cell. */
  function Room(c: Cell, d: Dir): nat {
    var r := match d
      case Left => c.x + 1
      case Right => GridWidth - c.x
      case Up => c.y + 1
      case Down => GridHeight - c.y;
    if r < 0 then 0 else r
  }

  /** The wall scan: step along the heading and count in-grid cells until
      the first step that leaves the board. */
  function DistanceToWall(c: Cell, d: Dir): (n: nat)
    ensures InGrid(c) ==> n == WallGap(c, d)
    decreases Room(c, d)
  {
    var next := Next(c, d);
    if !InGrid(next) then 0 else 1 + DistanceToWall(next, d)
  }

  /** From any start, on the board or off it, the scan counts exactly the
      unbroken run of in-grid cells straight ahead. */
  lemma {:induction false} DistanceToWallIsRun(c: Cell, d: Dir)
    ensures forall k :: 1 <= k <= DistanceToWall(c, d) ==> InGrid(Ahead(c, d, k))
    ensures !InGrid(Ahead(c, d, DistanceToWall(c, d) + 1))
    decreases Room(c, d)
  {
    var next := Next(c, d);
    assert next == Ahead(c, d, 1);
    if InGrid(next) {
      DistanceToWallIsRun(next, d);
      forall k | 1 <= k <= DistanceToWall(c, d)
        ensures InGrid(Ahead(c, d, k))
      {
        if k > 1 {
          assert Ahead(c, d, k) == Ahead(next, d, k - 1);
        }
      }
      assert Ahead(c, d, DistanceToWall(c, d) + 1) == Ahead(next, d, DistanceToWall(next, d) + 1);
    }
  }

  function Flag(b: bool): real {
    if b then 1.0 else 0.0
  }

  /** The normaliser of the distance sensors: the longer side of the board. */
  const LongerSide: int := if GridWidth > GridHeight then GridWidth else GridHeight

  /** The sensor vector of a snake whose body is `positions` (head first),
      heading `direction`, with the food at `food`:
      0-2 danger straight/left/right, 3-5 food left/straight/right,
      6-7 distance to the wall straight/left over the longer side. */
  function Inputs(positions: seq<Cell>, direction: Dir, food: Cell): (r: seq<real>)
    requires |positions| > 0
    ensures |r| == InputNodes
  {
    var head := positions[0];
    var rel := RelativeOf(direction);
    var toFood := Cell(food.x - head.x, food.y - head.y);
    [ Flag(IsDanger(Next(head, rel.straight), positions)),
      Flag(IsDanger(Next(head, rel.left), positions)),
      Flag(IsDanger(Next(head, rel.right), positions)),
      Flag(Dot(toFood, Vec(rel.left)) > 0),
      Flag(Dot(toFood, Vec(rel.straight)) > 0),
      Flag(Dot(toFood, Vec(rel.right)) > 0),
      WallSensor(head, rel.straight),
      WallSensor(head, rel.left) ]
  }

  /** A distance sensor: the wall scan normalised by the longer side. */
  function WallSensor(head: Cell, d: Dir): real {
    DistanceToWall(head, d) as real / LongerSide as real
  }

  /** The sensor vector entry by entry (helper for the lemmas below). */
  lemma InputsEntries(positions: seq<Cell>, direction: Dir, food: Cell)
    requires |positions| > 0
    ensures var r := Inputs(positions, direction, food);
      var head := positions[0];
      var rel := RelativeOf(direction);
      && r[0] == Flag(IsDanger(Next(head, rel.straight), positions))
      && r[1] == Flag(IsDanger(Next(head, rel.left), positions))
      && r[2] == Flag(IsDanger(Next(head, rel.right), positions))
      && r[3] == Flag(Dot(Cell(food.x - head.x, food.y - head.y), Vec(rel.left)) > 0)
      && r[4] == Flag(Dot(Cell(food.x - head.x, food.y - head.y), Vec(rel.straight)) > 0)
      && r[5] == Flag(Dot(Cell(food.x - head.x, food.y - head.y), Vec(rel.right)) > 0)
  {
  }

  /** The first six sensors are 0/1 flags. */
  lemma FlagSensorsAreBits(positions: seq<Cell>, direction: Dir, food: Cell)
    requires |positions| > 0
    ensures var r := Inputs(positions, direction, food);
      forall i :: 0 <= i < 6 ==> r[i] == 0.0 || r[i] == 1.0
  {
    InputsEntries(positions, direction, food);
  }

  /** The three danger flags are set exactly when the cell one step straight
      ahead, to the left or to the right of the head is off the board or on
      the body. */
  lemma DangerSensorsMatchHeadings(positions: seq<Cell>, direction: Dir, food: Cell)
    requires |positions| > 0
    ensures var r := Inputs(positions, direction, food);
      var rel := RelativeOf(direction);
      && (r[0] == 1.0 <==> IsDanger(Next(positions[0], rel.straight), positions))
      && (r[1] == 1.0 <==> IsDanger(Next(positions[0], rel.left), positions))
      && (r[2] == 1.0 <==> IsDanger(Next(positions[0], rel.right), positions))
  {
    InputsEntries(positions, direction, food);
  }

  /** Through the heading table, the three danger flags report danger in the
      cells that decisions 1, 0 and 2 of the turn would step into. */
  lemma DangerSensorsMatchTurn(positions: seq<Cell>, direction: Dir, food: Cell)
    requires |positions| > 0
    ensures var r := Inputs(positions, direction, food);
      && (r[0] == 1.0 <==> IsDanger(Next(positions[0], Turn(1, direction)), positions))
      && (r[1] == 1.0 <==> IsDanger(Next(positions[0], Turn(0, direction)), positions))
      && (r[2] == 1.0 <==> IsDanger(Next(positions[0], Turn(2, direction)), positions))
  {
    DangerSensorsMatchHeadings(positions, direction, food);
    var rel := RelativeOf(direction);
    assert rel.left == Turn(0, direction) && rel.straight == Turn(1, direction)
      && rel.right == Turn(2, direction) by {
      RelativeMatchesTurn(direction);
    }
  }

  /** Through the heading table, the three food sensors report whether the
      food lies on the side of the head that decisions 0, 1 and 2 of the turn
      would head towards: a positive dot product of the offset to the food
      with that heading. */
  lemma FoodSensorsMatchTurn(positions: seq<Cell>, direction: Dir, food: Cell)
    requires |positions| > 0
    ensures var r := Inputs(positions, direction, food);
      var toFood := Cell(food.x - positions[0].x, food.y - positions[0].y);
      && (r[3] == 1.0 <==> Dot(toFood, Vec(Turn(0, direction))) > 0)
      && (r[4] == 1.0 <==> Dot(toFood, Vec(Turn(1, direction))) > 0)
      && (r[5] == 1.0 <==> Dot(toFood, Vec(Turn(2, direction))) > 0)
  {
    InputsEntries(positions, direction, food);
    var rel := RelativeOf(direction);
    assert rel.left == Turn(0, direction) && rel.straight == Turn(1, direction)
      && rel.right == Turn(2, direction) by {
      RelativeMatchesTurn(direction);
    }
  }

  /** Food is never reported on both sides at once: the left heading is the
      opposite of the right one, so the two dot products have opposite signs. */
  lemma FoodNeverOnBothSides(positions: seq<Cell>, direction: Dir, food: Cell)
    requires |positions| > 0
    ensures var r := Inputs(positions, direction, food);
      !(r[3] == 1.0 && r[5] == 1.0)
  {
    InputsEntries(positions, direction, food);
    match direction
    case Up =>
    case Down =>
    case Left =>
    case Right =>
  }

  /** Sensors 6 and 7 measure the free cells between the head and the wall
      straight ahead and to the left, over the longer side of the board. */
  lemma WallSensorsMeasureGaps(positions: seq<Cell>, direction: Dir, food: Cell)
    requires |positions| > 0 && InGrid(positions[0])
    ensures var r := Inputs(positions, direction, food);
      var rel := RelativeOf(direction);
      && r[6] == WallGap(positions[0], rel.straight) as real / LongerSide as real
      && r[7] == WallGap(positions[0], rel.left) as real / LongerSide as real
  {
  }

  /** From a head on the board the two distance sensors lie in [0, 1). */
  lemma WallSensorsBelowOne(positions: seq<Cell>, direction: Dir, food: Cell)
    requires |positions| > 0 && InGrid(positions[0])
    ensures var r := Inputs(positions, direction, food);
      0.0 <= r[6] < 1.0 && 0.0 <= r[7] < 1.0
  {
    GridDimensions();
  }
}

=== FILE: snake_agent.dfy ===
/** One snake as an immutable record and its step function. The network's
    forward pass is not modelled: `Move` receives the outputs the network
    produced for this step's sensor vector, and only their argmax matters. */
module SnakeAgent {

  import opened Constants
  import opened Heading
  import opened Sensing

  datatype Snake = Snake(
    positions: seq<Cell>,    // head first
    direction: Dir,
    grow: bool,              // one extra segment owed to the next non-eating step
    alive: bool,
    score: nat,
    stepsTaken: nat,
    stepsSinceFood: nat)

  /** A fresh snake: one segment in the middle of the board, heading `direction`
      (drawn at random by the caller). */
  function Spawn(direction: Dir): (s: Snake)
    ensures Valid(s) && s.alive && !s.grow
    ensures s.positions == [Cell(GridWidth / 2, GridHeight / 2)] && s.direction == direction
    ensures s.score == 0 && s.stepsTaken == 0 && s.stepsSinceFood == 0
  {
    Snake([Cell(GridWidth / 2, GridHeight / 2)], direction, false, true, 0, 0, 0)
  }

  /** The starvation test exactly as written: more steps without food than
      one and a half times the number of cells. */
  predicate Starving(stepsSinceFood: nat) {
    (stepsSinceFood as real) > (GridWidth * GridHeight) as real * 1.5
  }

  const StarvationLimit: nat := 900

  /** On this board the starvation threshold is 900 steps. */
  lemma StarvationThreshold(n: nat)
    ensures Starving(n) <==> n > StarvationLimit
  {
    GridDimensions();
  }

  /** The heading after this step's decision. */
  function NewHeading(s: Snake, outputs: seq<real>): Dir
    requires |outputs| > 0
  {
    Turn(ArgMax(outputs), s.direction)
  }

  /** The cell the head moves into. */
  function Target(s: Snake, outputs: seq<real>): Cell
    requires |s.positions| > 0 && |outputs| > 0
  {
    Next(s.positions[0], NewHeading(s, outputs))
  }

  /** The move is fatal when the new head leaves the board or lands on any
      body cell other than the head, the tail cell included. */
  predicate Collides(s: Snake, head: Cell)
    requires |s.positions| > 0
  {
    !InGrid(head) || head in s.positions[1..]
  }

  /** The second half of a step, once the new head `head` is known to be on
      the board and off the body: push the head, eat or settle the owed
      growth, then apply the starvation test to the moved body. */
  function Advance(t: Snake, head: Cell, food: Cell): (r: Snake)
    requires |t.positions| > 0
    // the body grows by one cell exactly when it eats or a growth is owed
    ensures |r.positions| == |t.positions| + (if head == food || t.grow then 1 else 0)
    // the new head goes in front of the old cells, kept in order
    ensures r.positions[0] == head
    ensures r.positions[1..] == t.positions[..|r.positions| - 1]
    // eating scores, owes one growth and resets the hunger counter
    ensures head == food ==> r.score == t.score + 1 && r.grow && r.stepsSinceFood == 0
    // any other step settles the owed growth and keeps the hunger count
    ensures head != food ==> r.score == t.score && !r.grow && r.stepsSinceFood == t.stepsSinceFood
    // the snake lives on exactly while it is not starving
    ensures r.alive <==> t.alive && r.stepsSinceFood <= StarvationLimit
    ensures r.direction == t.direction && r.stepsTaken == t.stepsTaken
  {
    var moved :=
      if head == food then
        t.(positions := [head] + t.positions, score := t.score + 1, grow := true, stepsSinceFood := 0)
      else if !t.grow then
        t.(positions := [head] + t.positions[..|t.positions| - 1])
      else
        t.(positions := [head] + t.positions, grow := false);
    StarvationThreshold(moved.stepsSinceFood);
    if Starving(moved.stepsSinceFood) then moved.(alive := false) else moved
  }

  /** One step of a snake whose network answered `outputs` to this step's
      sensor vector; `food` is the food cell. */
  function Move(s: Snake, food: Cell, outputs: seq<real>): (r: Snake)
    requires s.alive ==> |s.positions| > 0 && |outputs| > 0
    // a dead snake is left exactly as it is
    ensures !s.alive ==> r == s
    // the body never shrinks
    ensures |r.positions| >= |s.positions|
    // a live snake always counts the step and takes the new heading
    ensures s.alive ==> r.stepsTaken == s.stepsTaken + 1 && r.direction == NewHeading(s, outputs)
    // a collision kills the snake where it stands
    ensures s.alive && Collides(s, Target(s, outputs)) ==>
      && !r.alive && r.positions == s.positions && r.grow == s.grow
      && r.score == s.score && r.stepsSinceFood == s.stepsSinceFood + 1
    // otherwise the rest of the step is `Advance` on the counted, turned snake
    ensures s.alive && !Collides(s, Target(s, outputs)) ==>
      r == Advance(Counted(s, outputs), Target(s, outputs), food)
  {
    if !s.alive then s
    else
      var turned := Counted(s, outputs);
      var head := Next(s.positions[0], turned.direction);
      if !InGrid(head) then turned.(alive := false)
      else if head in s.positions[1..] then turned.(alive := false)
      else Advance(turned, head, food)
  }

  /** A live snake at the start of a step: both counters raised and the new
      heading taken, before anything else happens. */
  function Counted(s: Snake, outputs: seq<real>): (t: Snake)
    requires |outputs| > 0
    ensures t.positions == s.positions && t.grow == s.grow && t.alive == s.alive && t.score == s.score
    ensures t.stepsTaken == s.stepsTaken + 1 && t.stepsSinceFood == s.stepsSinceFood + 1
    ensures t.direction == NewHeading(s, outputs)
  {
    s.(stepsTaken := s.stepsTaken + 1, stepsSinceFood := s.stepsSinceFood + 1,
       direction := NewHeading(s, outputs))
  }

  /** The sensor vector of a snake against the food cell. */
  function SnakeInputs(s: Snake, food: Cell): (r: seq<real>)
    requires |s.positions| > 0
    ensures |r| == InputNodes
  {
    Inputs(s.positions, s.direction, food)
  }

  /** The body-shape invariants. */
  predicate Distinct(p: seq<Cell>) {
    forall i, j :: 0 <= i < j < |p| ==> p[i] != p[j]
  }

  predicate Contiguous(p: seq<Cell>) {
    forall i :: 0 <= i < |p| - 1 ==> Adjacent(p[i], p[i + 1])
  }

  predicate AllInGrid(p: seq<Cell>) {
    forall i :: 0 <= i < |p| ==> InGrid(p[i])
  }

  /** What holds of every snake reachable from `Spawn`: a non-empty, distinct,
      edge-connected body on the board, a length between score + 1 and
      2 * score + 1 (one less while a growth is owed), and no live snake past
      the starvation limit. The length is not score + 1 in general: an
      isolated meal adds one cell on the step it is eaten and the owed one on
      the next step, while meals on consecutive steps share the single owed
      cell. */
  predicate Valid(s: Snake) {
    && |s.positions| > 0
    && AllInGrid(s.positions)
    && Distinct(s.positions)
    && Contiguous(s.positions)
    && s.score + 1 <= |s.positions|
    && |s.positions| + (if s.grow then 1 else 0) <= 2 * s.score + 1
    && (s.alive ==> s.stepsSinceFood <= StarvationLimit)
  }

  lemma AdjacentDiffers(a: Cell, b: Cell)
    requires Adjacent(a, b)
    ensures a != b
  {
  }

  lemma StepIsAdjacent(c: Cell, d: Dir)
    ensures Adjacent(Next(c, d), c)
  {
  }

  /** A cell other than the head is in the body exactly when it is in the
      body without its head. */
  lemma InTailOnly(h: Cell, p: seq<Cell>)
    requires |p| > 0 && h != p[0]
    ensures h in p <==> h in p[1..]
  {
    assert p == [p[0]] + p[1..];
  }

  /** Prepending a fresh neighbour of the head keeps the body distinct and
      connected, and so does dropping cells from the tail end. */
  lemma PushHead(h: Cell, p: seq<Cell>, keep: nat)
    requires |p| > 0 && Distinct(p) && Contiguous(p)
    requires Adjacent(h, p[0]) && h !in p[1..]
    requires keep <= |p|
    ensures Distinct([h] + p[..keep]) && Contiguous([h] + p[..keep])
  {
    var q := [h] + p[..keep];
    AdjacentDiffers(h, p[0]);
    InTailOnly(h, p);
    forall i, j | 0 <= i < j < |q|
      ensures q[i] != q[j]
    {
      if i == 0 {
        assert q[j] == p[j - 1];
      } else {
        assert q[i] == p[i - 1] && q[j] == p[j - 1];
      }
    }
    forall i | 0 <= i < |q| - 1
      ensures Adjacent(q[i], q[i + 1])
    {
      if i > 0 {
        assert q[i] == p[i - 1] && q[i + 1] == p[i];
      }
    }
  }

  /** Every step keeps the invariants. */
  lemma MovePreservesValid(s: Snake, food: Cell, outputs: seq<real>)
    requires Valid(s)
    requires s.alive ==> |outputs| > 0
    ensures Valid(Move(s, food, outputs))
  {
    if s.alive {
      var h := Target(s, outputs);
      if !Collides(s, h) {
        StepIsAdjacent(s.positions[0], NewHeading(s, outputs));
        AdvancePreservesValid(s, Counted(s, outputs), h, food);
      }
    }
  }

  /** The successful half of a step keeps the invariants, whatever the
      heading: the new head is an on-board neighbour of the old head and off
      the rest of the body. */
  lemma AdvancePreservesValid(s: Snake, t: Snake, h: Cell, food: Cell)
    requires Valid(s) && s.alive
    requires t.positions == s.positions && t.grow == s.grow && t.score == s.score && t.alive
    requires Adjacent(h, s.positions[0]) && InGrid(h) && h !in s.positions[1..]
    ensures Valid(Advance(t, h, food))
  {
    var r := Advance(t, h, food);
    var p := s.positions;
    if h == food || s.grow {
      PushHead(h, p, |p|);
      assert r.positions == [h] + p[..|p|];
    } else {
      PushHead(h, p, |p| - 1);
      assert r.positions == [h] + p[..|p| - 1];
    }
    assert AllInGrid(r.positions) by {
      forall i | 0 <= i < |r.positions|
        ensures InGrid(r.positions[i])
      {
        if i > 0 {
          assert r.positions[i] == p[i - 1];
        }
      }
    }
  }

  /** Danger seen is danger met: for a live snake on the board, the danger
      sensor for the chosen turn (left for 0, ahead for 1, right for 2) is
      set exactly when the move collides. */
  lemma DangerSensorPredictsCollision(s: Snake, food: Cell, outputs: seq<real>)
    requires Valid(s) && s.alive && |outputs| == OutputNodes
    ensures var slot := if ArgMax(outputs) == 0 then 1 else if ArgMax(outputs) == 1 then 0 else 2;
      SnakeInputs(s, food)[slot] == 1.0 <==> Collides(s, Target(s, outputs))
  {
    var p := s.positions;
    var h := Target(s, outputs);
    StepIsAdjacent(p[0], NewHeading(s, outputs));
    AdjacentDiffers(h, p[0]);
    InTailOnly(h, p);
    DangerSensorsMatchTurn(p, s.direction, food);
  }

  /** An isolated meal costs two segments: eating adds one cell, the next
      non-eating step adds the owed one, and the step after that keeps the
      length, so the growth is consumed exactly once. */
  lemma MealGrowsTwice(s: Snake, food1: Cell, out1: seq<real>, food2: Cell, out2: seq<real>,
                       food3: Cell, out3: seq<real>)
    requires Valid(s) && s.alive && !s.grow
    requires |out1| > 0 && |out2| > 0 && |out3| > 0
    requires !Collides(s, Target(s, out1)) && Target(s, out1) == food1
    requires var s1 := Move(s, food1, out1);
      !Collides(s1, Target(s1, out2)) && Target(s1, out2) != food2
    requires var s2 := Move(Move(s, food1, out1), food2, out2);
      !Collides(s2, Target(s2, out3)) && Target(s2, out3) != food3
    ensures var s2 := Move(Move(s, food1, out1), food2, out2);
      && s2.alive && !s2.grow
      && s2.score == s.score + 1
      && |s2.positions| == |s.positions| + 2
    ensures var s3 := Move(Move(Move(s, food1, out1), food2, out2), food3, out3);
      |s3.positions| == |s.positions| + 2
  {
    var s1 := Move(s, food1, out1);
    assert s1.alive && s1.grow && s1.stepsSinceFood == 0;
    var s2 := Move(s1, food2, out2);
    assert s2.stepsSinceFood == 1;
    assert s2.alive;
  }

  /** Meals on consecutive steps share the one owed cell: two meals in a row
      and a plain step score two and add three cells, not four. */
  lemma ConsecutiveMealsShareGrowth(t: Snake, h1: Cell, h2: Cell, h3: Cell, food3: Cell)
    requires |t.positions| > 0 && !t.grow && h3 != food3
    ensures var r := Advance(Advance(Advance(t, h1, h1), h2, h2), h3, food3);
      && r.score == t.score + 2
      && |r.positions| == |t.positions| + 3
      && !r.grow
  {
  }

  /** Network outputs whose first maximum is the middle one: "go straight". */
  predicate PrefersStraight(out: seq<real>) {
    |out| == 3 && out[0] < out[1] && out[2] <= out[1]
  }

  lemma StraightDecision(out: seq<real>)
    requires PrefersStraight(out)
    ensures ArgMax(out) == 1
  {
    var i := ArgMax(out);
    assert out[1] <= out[i];
  }

  /** A concrete run that refutes "length = score + 1": a fresh snake whose
      network keeps choosing "straight" eats the food one cell ahead, then
      moves on; after these two steps it is alive with score 1 and three
      cells. */
  lemma LengthIsNotScorePlusOne(d: Dir, out: seq<real>)
    requires PrefersStraight(out)
    ensures var s0 := Spawn(d);
      var s1 := Move(s0, Next(s0.positions[0], d), out);
      var s2 := Move(s1, s0.positions[0], out);
      && s1.alive && s1.score == 1 && |s1.positions| == 2
      && s2.alive && s2.score == 1 && |s2.positions| == 3
  {
    var s0 := Spawn(d);
    var c := s0.positions[0];
    GridDimensions();
    assert c == Cell(15, 10);
    StraightDecision(out);
    var h1 := Next(c, d);
    assert NewHeading(s0, out) == d;
    assert Target(s0, out) == h1;
    assert !Collides(s0, h1);
    var s1 := Move(s0, h1, out);
    assert s1.positions == [h1, c];
    assert NewHeading(s1, out) == d;
    var h2 := Next(h1, d);
    assert Target(s1, out) == h2;
    assert InGrid(h2);
    assert h2 != c;
    assert !Collides(s1, h2);
  }

  /** The fitness floor of the scoring rule: whatever the raw score, the
      fitness handed to selection is the larger of 1 and the raw value. */
  function FloorFitness(raw: real): (f: real)
    ensures f >= 1.0 && f >= raw
    ensures f == raw || f == 1.0
  {
    if raw > 1.0 then raw else 1.0
  }
}
